=== FILE: README.md ===
# Animator-state picker and scene handles of NaughtyAttributes, in Dafny

This project models the decision logic of two Unity editor extensions from
DanPieNaughtyAttributes and proves properties of it.

- **`AnimatorStatePropertyDrawer`** draws an `AnimationStateInfo` field as
  two popups. The first lists the layers of the animator controller found on
  the inspected object. The second lists the states of the chosen layer. The
  model covers:
  - the option lists, each with a sentinel entry at index 0;
  - the mapping from the stored `Layer` number to a popup index and back;
  - the mapping from the stored `Name` to a popup index and back;
  - `FindAnimator`, where a field takes precedence over a property;
  - how the controller is resolved through an override controller;
  - `GetParentObject`, which resolves a dotted property path such as
    `waves.Array.data[2]` against a live object.
- **`HandleEditor`** draws scene-view position handles. It walks the
  inspected object's fields and finds those marked `[Handle]`. It draws a
  handle for a `Vector3` field, or for each `Vector3` element of a list
  field, when the field's serialized property exists and it and all its
  ancestors are visible. The model covers:
  - the recursive walk and the dotted paths it builds;
  - the ancestor-visibility loop;
  - the list-element filter;
  - the write-back guard of a single handle.

Host APIs are parameters or data:
- **Popups:** a popup is a function from the shown index and the options to
  the index the user leaves selected. `KeepSelection` is the popup nobody
  touches.
- **Reflection:** reflection is replaced by finite datatypes, a field tree or
  maps of members.
- **Serialized object:** a map from property paths to property records.
- **Visibility:** `PropertyUtility.IsVisible` is a flag on each record.
- **Change check:** the result of the change check is a boolean input.
- **Transforms:** `TransformPoint` and `InverseTransformPoint` are opaque
  function parameters.
- **Exceptions:** C# exceptions are `Failure` values of a `Result`. The drawer
  writes `Layer` before the state options can throw. Its result therefore
  carries what had already been written when it threw.

The modules are:
- `Wrappers`: `Option`, `Result` and the exception kinds.
- `Numerics`: the 32-bit `int`, with wrap-around, `Mathf.Clamp` and `Mathf.Max`.
- `Text`: ordinal `IndexOf`, `LastIndexOf`, `StartsWith`, `Split`/`Join` on one separator, and `int.Parse` with the invariant culture.
- `AnimatorStateDrawer`.
- `PropertyPathWalk`.
- `HandleEditor`.

C# `int` arithmetic is unchecked, so `Layer + 1` wraps. A stored `Layer` of
`int.MaxValue` is therefore displayed on the sentinel and stored back as -1.
The model keeps this behaviour (`DisplayedLayerIndex`).

`GetParentObject` is private and has no caller in the drawer. It is modelled
on its own.

## Model

| member | source | states |
|---|---|---|
| AnimatorStateDrawer.OnGUI | Editor/PropertyDrawers/AnimatorStatePropertyDrawer.cs:18-91 | A property that is not a generic `AnimationStateInfo` gets the warning help box, and only such a property does. A drawn pass lists the layers of the controller resolved from the animator that the attribute's member name finds. The layer popup is shown on the stored layer's index, and `Layer` becomes the stored form of the user's layer pick. The state popup lists the options of the layer now stored, is shown on the last match of the stored name, and `Name` becomes what the user's state pick denotes. Both selections lie inside their options. A pass that throws throws an index error, with `Layer` already holding the stored form of the layer pick and `Name` untouched. |
| AnimatorStateDrawer.OnGUINeverThrows | Editor/PropertyDrawers/AnimatorStatePropertyDrawer.cs:18-91 | On an `AnimationStateInfo` field, popups that return one of their own option indices always complete the pass, whatever animator the target holds. The layer popup then lists the resolved controller's layers, the layer ends in [-1, n-1], and the name is `""` or a listed state. |
| AnimatorStateDrawer.FindAnimator | Editor/PropertyDrawers/AnimatorStatePropertyDrawer.cs:94-108 | A field of the name whose type is assignable to `Animator` wins. Otherwise such a property of that name is used. Any animator found comes from a matching member of an assignable type. |
| AnimatorStateDrawer.FieldShadowsProperty | Editor/PropertyDrawers/AnimatorStatePropertyDrawer.cs:99-101 | Once a matching field exists, changing the target's properties does not change the animator found. |
| AnimatorStateDrawer.ResolveController | Editor/PropertyDrawers/AnimatorStatePropertyDrawer.cs:37-49 | A controller is found exactly when the animator exists and holds an `AnimatorController`, either directly or as an override controller's base. That controller is the one found. |
| AnimatorStateDrawer.LayerOptions | Editor/PropertyDrawers/AnimatorStatePropertyDrawer.cs:51-63 | With n layers the options are n+1 long: `(None)`, then layer i's name at i+1. Without a controller they are exactly `(No Animator)`. |
| AnimatorStateDrawer.DisplayedLayerIndex | Editor/PropertyDrawers/AnimatorStatePropertyDrawer.cs:65-66 | The shown index is always a valid option index. It is the layer plus one for layers from -1 to the last, 0 below -1, the last option above, and 0 for `int.MaxValue` because the increment wraps. |
| AnimatorStateDrawer.StoredLayer | Editor/PropertyDrawers/AnimatorStatePropertyDrawer.cs:67-68 | The stored layer is never below -1. It is the pick minus one for a pick of 0 or more, and -1 for a negative pick above `int.MinValue`. A pick of `int.MinValue` wraps on the decrement and stores `int.MaxValue`. |
| AnimatorStateDrawer.LayerSelectionRoundTrip | Editor/PropertyDrawers/AnimatorStatePropertyDrawer.cs:65-68 | An untouched layer popup gives back the stored layer if and only if that layer is -1 or the index of a layer. |
| AnimatorStateDrawer.DisplayedLayerIsStoredLayer | Editor/PropertyDrawers/AnimatorStatePropertyDrawer.cs:51-66 | With a controller, a stored layer that indexes one of its layers is shown on that layer's own name. |
| AnimatorStateDrawer.StateOptions | Editor/PropertyDrawers/AnimatorStatePropertyDrawer.cs:70-83 | The call throws an index error if and only if a controller exists and the layer is past its last layer. With a controller and a layer of 0 or more, the options are `(None)` followed by that layer's state names. Otherwise they are exactly `(No State)`. |
| AnimatorStateDrawer.DisplayedStateIndex | Editor/PropertyDrawers/AnimatorStatePropertyDrawer.cs:85-89 | The shown state index is 0 or an index whose option equals the stored name. No later option from index 1 on equals the name, so it is the last match, and index 0 is never matched. |
| AnimatorStateDrawer.ScanStateIndex | Editor/PropertyDrawers/AnimatorStatePropertyDrawer.cs:85-89 | The forward loop that keeps the latest match computes the same index as the last-match definition. |
| AnimatorStateDrawer.StoredName | Editor/PropertyDrawers/AnimatorStatePropertyDrawer.cs:91 | A pick of 0 or less stores `""`. A pick inside the options stores that option. A positive pick past the options throws an index error. |
| AnimatorStateDrawer.StateSelectionRoundTrip | Editor/PropertyDrawers/AnimatorStatePropertyDrawer.cs:85-91 | An untouched state popup keeps a name that some state after the sentinel carries, and clears any other name to `""`. |
| AnimatorStateDrawer.DrawPopups | Editor/PropertyDrawers/AnimatorStatePropertyDrawer.cs:51-91 | A drawn pass shows the controller's layer options on the stored layer's index and stores `StoredLayer` of the user's layer pick: the pick minus one floored at -1, or `int.MaxValue` for `int.MinValue`. The state popup lists the options of the layer stored, is shown on the last match of the stored name, and the name the user's state pick denotes is stored. A pass that throws throws an index error, with only `Layer` written. |
| AnimatorStateDrawer.DrawStatePopup | Editor/PropertyDrawers/AnimatorStatePropertyDrawer.cs:67-91 | A throw is an index error after `Layer`, and only `Layer`, was written with the stored form of the layer pick. A completed pass lists the stored layer's state options, shows the last match of the stored name, and stores the name the user's state pick denotes. |
| AnimatorStateDrawer.SameStateOptions | Editor/PropertyDrawers/AnimatorStatePropertyDrawer.cs:67-73 | The stored layer and the wrapped `pick - 1` that line 73 indexes with always select the same state options, because every negative layer gives the "no state" entry. |
| AnimatorStateDrawer.StoreState | Editor/PropertyDrawers/AnimatorStatePropertyDrawer.cs:90-91 | The pass completes if and only if the state pick is 0 or less or inside the options. A completed pass changes only the name, to what the pick denotes. Any other pick throws an index error with the earlier writes kept. |
| AnimatorStateDrawer.KeptStatePopup | Editor/PropertyDrawers/AnimatorStatePropertyDrawer.cs:67-91 | After a valid layer pick, the state options exist. An untouched state popup then shows the last match of the stored name and stores the name that index denotes. |
| AnimatorStateDrawer.UntouchedOutcome | Editor/PropertyDrawers/AnimatorStatePropertyDrawer.cs:65-91 | A pass with both popups untouched never throws. It stores the shown layer minus one and the name its shown state denotes. |
| AnimatorStateDrawer.UntouchedLayer | Editor/PropertyDrawers/AnimatorStatePropertyDrawer.cs:65-68 | Across such a pass, `Layer` is unchanged if and only if it was -1 or a layer index. It always ends in that range. |
| AnimatorStateDrawer.UntouchedName | Editor/PropertyDrawers/AnimatorStatePropertyDrawer.cs:85-91 | Across such a pass, `Name` is unchanged if and only if it was `""` or a listed state. It always ends as one of those. |
| AnimatorStateDrawer.UntouchedPopups | Editor/PropertyDrawers/AnimatorStatePropertyDrawer.cs:65-91 | The layer and name halves of an untouched pass hold together. |
| AnimatorStateDrawer.RedrawIsStable | Editor/PropertyDrawers/AnimatorStatePropertyDrawer.cs:65-91 | Drawing the value an untouched pass produced, again untouched, leaves it as it is. |
| AnimatorStateDrawer.OptionChoicesNeverThrow | Editor/PropertyDrawers/AnimatorStatePropertyDrawer.cs:65-91 | When both popups return one of their own option indices, nothing throws. The layer ends in [-1, n-1] and the name is `""` or a listed state. |
| AnimatorStateDrawer.OptionStatePick | Editor/PropertyDrawers/AnimatorStatePropertyDrawer.cs:67-91 | After a layer pick among the layer options, a state popup that returns one of its options completes the pass, with the layer stored as the pick minus one and the name `""` or a listed state. |
| AnimatorStateDrawer.PickPastLastLayerThrows | Editor/PropertyDrawers/AnimatorStatePropertyDrawer.cs:67-73 | With a controller, a layer pick denoting no layer throws an index error while the state options are built. Such a pick is past the last layer plus one, or `int.MinValue`, whose decrement wraps. `Layer` is already written at that point. |
| Numerics.Wrap32 | Editor/PropertyDrawers/AnimatorStatePropertyDrawer.cs:66-67 | An `int` sum or difference that stays in range is unchanged. One that leaves the range moves back by exactly 2^32, toward the range. |
| Numerics.Clamp | Editor/PropertyDrawers/AnimatorStatePropertyDrawer.cs:66 | A value below the lower bound gives the lower bound. Otherwise a value above the upper bound gives the upper bound, even when the bounds are out of order. Any other value is returned unchanged, and with ordered bounds the result lies within them. |
| Numerics.Max | Editor/PropertyDrawers/AnimatorStatePropertyDrawer.cs:68 | The result is one of the two arguments and is at least each of them. |
| Text.IndexOf | Editor/PropertyDrawers/AnimatorStatePropertyDrawer.cs:124-125 | The result is the first position holding the character, or -1 exactly when there is none. |
| Text.LastIndexOf | Editor/HandleEditor.cs:61 | The result is a position holding the character with none after it, or -1 with none at all. |
| Text.Split | Editor/PropertyDrawers/AnimatorStatePropertyDrawer.cs:112 | A split has at least one segment, and exactly one when the text has no separator. |
| Text.SplitSegments | Editor/PropertyDrawers/AnimatorStatePropertyDrawer.cs:112 | No segment of a split contains the separator. |
| Text.JoinSplit | Editor/PropertyDrawers/AnimatorStatePropertyDrawer.cs:112 | Joining the segments of a split with the separator restores the text. |
| Text.SplitJoin | Editor/PropertyDrawers/AnimatorStatePropertyDrawer.cs:112 | Splitting the join of separator-free segments gives the segments back. |
| Text.ParseInt32 | Editor/PropertyDrawers/AnimatorStatePropertyDrawer.cs:127 | A format error is reported exactly when the trimmed text is not an optional sign followed by at least one digit. Any other failure is an overflow. Well-formed text parses if and only if its signed value fits in an `int`, and it then gives that value. |
| Text.SignedInt32 | Editor/PropertyDrawers/AnimatorStatePropertyDrawer.cs:127 | A signed magnitude overflows if and only if it exceeds `int.MaxValue`, or `-int.MinValue` for a negative sign. The failure is an overflow error, and any other magnitude gives its signed value. |
| Text.ParseDecimal | Editor/PropertyDrawers/AnimatorStatePropertyDrawer.cs:127 | `int.Parse` reads back every non-negative `int` from its decimal text. |
| PropertyPathWalk.ElementIndex | Editor/PropertyDrawers/AnimatorStatePropertyDrawer.cs:122-127 | A `data[` segment without `]` throws an argument error from the negative substring length. Otherwise its index is the text between `[` and the first `]`, parsed as an `int`. |
| PropertyPathWalk.Step | Editor/PropertyDrawers/AnimatorStatePropertyDrawer.cs:117-148 | One segment: `Array` leaves the object as it is. A field name reads the field, or gives null when the field is missing. A `data[k]` segment parses k first, then gives null on a non-list and element k on a list. An index outside the list throws. |
| PropertyPathWalk.Walk | Editor/PropertyDrawers/AnimatorStatePropertyDrawer.cs:113-152 | An empty path gives the object itself, and a walk from null gives null. From an object, a one-segment path gives exactly that segment's step, so with `WalkAppend` every walk is fixed step by step. A walk throws only if the path has a `data[` segment. |
| PropertyPathWalk.GetParentObject | Editor/PropertyDrawers/AnimatorStatePropertyDrawer.cs:110-153 | A null root gives null. The call throws only if some segment of the path starts with `data[`. On an object root, a path without `.` gives exactly that segment's step: the root for `Array`, the field or null for a name, and for `data[k]` the parse error, null on a non-list, element k, or the index error. `DottedPath` extends this to every path. |
| PropertyPathWalk.DottedPath | Editor/PropertyDrawers/AnimatorStatePropertyDrawer.cs:112-150 | A path joined from `.`-free segments resolves by walking exactly those segments, in order. |
| PropertyPathWalk.WalkAppend | Editor/PropertyDrawers/AnimatorStatePropertyDrawer.cs:115-150 | Walking a path in two pieces gives what walking it in one gives. |
| PropertyPathWalk.ArraySegmentsIgnored | Editor/PropertyDrawers/AnimatorStatePropertyDrawer.cs:119-120 | Removing every `Array` segment changes neither the result nor whether the walk throws. |
| PropertyPathWalk.ElementSegment | Editor/PropertyDrawers/AnimatorStatePropertyDrawer.cs:122 | The segment Unity writes for an element starts with `data[` and has no `.`. |
| PropertyPathWalk.ElementIndexOfSegment | Editor/PropertyDrawers/AnimatorStatePropertyDrawer.cs:122-127 | The index parsed from element k's segment is k. |
| PropertyPathWalk.ElementPathSegments | Editor/PropertyDrawers/AnimatorStatePropertyDrawer.cs:112 | The path of element k of list field f splits into f, `Array` and the element segment. |
| PropertyPathWalk.ElementWalk | Editor/PropertyDrawers/AnimatorStatePropertyDrawer.cs:119-132 | From a list, `Array` followed by element k's segment leads to element k. |
| PropertyPathWalk.ListElementPath | Editor/PropertyDrawers/AnimatorStatePropertyDrawer.cs:110-153 | `GetParentObject` resolves the path of element k of a list field to that element. |
| HandleEditor.HandleAttribute | Core/DrawerAttributes/HandleAttribute.cs:9-12 | A `[Handle]` attribute records its argument, and `Local` when written without one. |
| HandleEditor.ParentPath | Editor/HandleEditor.cs:60-61 | A path has a parent exactly when it contains `.`. The parent is the strictly shorter prefix before the last `.`. |
| HandleEditor.AncestryChain | Editor/HandleEditor.cs:51-66 | The chain the walk inspects is empty exactly for a path that is not found, and starts at the property itself. Every entry is found, and each is the parent path of the one before it and strictly shorter, so the walk terminates. The chain ends at a path without `.` or one whose parent is not found. |
| HandleEditor.VisibleInHierarchyStep | Editor/HandleEditor.cs:53-62 | A found property is visible in the hierarchy if and only if it is visible and its parent, when found, is visible in the hierarchy. |
| HandleEditor.IsVisibleInHierarchy | Editor/HandleEditor.cs:51-66 | The loop returns true if and only if every property in the ancestor chain is visible. |
| HandleEditor.Vector3Indices | Editor/HandleEditor.cs:101-107 | The result lists exactly the indices of `Vector3` elements, strictly ascending. |
| HandleEditor.ElementHandles | Editor/HandleEditor.cs:101-107 | There is one element handle per listed index, in the listed order. |
| HandleEditor.ListHandles | Editor/HandleEditor.cs:97-110 | A non-array gets no handles. For an array, every drawn handle is at a `Vector3` element of the list, and every `Vector3` element gets a handle of the field's type. The handles are in strictly ascending element order, so none is repeated. |
| HandleEditor.DrawListHandles | Editor/HandleEditor.cs:97-110 | The index loop draws exactly the `Vector3` elements, in index order. |
| HandleEditor.FieldHandles | Editor/HandleEditor.cs:25-38 | A `[Handle]` field gets handles only if its property is found and visible in the hierarchy. Then a `Vector3` field gets exactly one whole-property handle, and a list field that is not a `Vector3` gets exactly the list handles of its property. Element handles come only from a list field whose property is an array. All handles use the field's handle type and path. |
| HandleEditor.DrawFields | Editor/HandleEditor.cs:18-49 | Every handle the walk draws is at a property that is found and visible in the hierarchy, and its path starts with the walk's prefix. `DrawsComeFromHandleFields` and `HandleFieldsAreDrawn` state which handles these are. |
| HandleEditor.OnSceneGUI | Editor/HandleEditor.cs:12-16 | Every handle drawn by one `OnSceneGUI` call is at a property that is found and visible in the hierarchy. |
| HandleEditor.SceneHandles | Editor/HandleEditor.cs:12-49 | A handle is drawn by one `OnSceneGUI` call if and only if some route of descended fields from the inspected object ends at a `[Handle]` field that gets this handle at the route's dotted path. |
| HandleEditor.SceneHandlesRouted | Editor/HandleEditor.cs:12-49 | Every handle drawn by one `OnSceneGUI` call comes from such a route. |
| HandleEditor.RoutedHandlesDrawn | Editor/HandleEditor.cs:12-49 | Every handle such a route's field gets is drawn by every `OnSceneGUI` call. |
| HandleEditor.DrawsComeFromHandleFields | Editor/HandleEditor.cs:18-49 | Every handle the walk draws belongs to a `[Handle]` field reached through fields the walk descends into. Its path is the prefix followed by those fields' names joined with `.`. |
| HandleEditor.HandleFieldsAreDrawn | Editor/HandleEditor.cs:18-49 | Every handle such a field gets at that dotted path is drawn by the walk. |
| HandleEditor.DescendedRoute | Editor/HandleEditor.cs:40-46 | Descending into a field extends every route below it by that field. The path becomes the prefix plus the field's name, `.`, and the rest of the route. |
| HandleEditor.DrawHandle | Editor/HandleEditor.cs:68-95 | Without a detected change, nothing is recorded or applied and the value is untouched. With a change, undo is recorded and the value applied. A `Global` handle stores the handle's position, and a `Local` handle stores it mapped back into the owner's space. |
| HandleEditor.HandleLeftInPlace | Editor/HandleEditor.cs:74-94 | A handle left where it was shown keeps the stored position, change or not, when the transform's inverse undoes it. |

## Left out

- **Layout:** `GetPropertyHeight` and the `Rect` layout arithmetic
  (AnimatorStatePropertyDrawer.cs:13-16, 32-35) are floating-point GUI
  geometry.
- **Host calls:** `EditorGUI.Popup`, `EditorGUI.HelpBox`,
  `Handles.PositionHandle`, `Undo.RecordObject`, `ApplyModifiedProperties` and
  `FindPropertyRelative` are host UI or undo side effects. Popups are
  functions given as inputs. The change check is a boolean input. Undo and
  apply are flags in the result.
- **Transforms:** `TransformPoint` and `InverseTransformPoint` are float vector
  math in the host transform. They are opaque function parameters.
- **Reflection:** `GetFields`, `GetCustomAttribute` and the type tests
  (`IsSerializable`, `IsPrimitive`, assignability to `Animator` or `IList`)
  become data on each field or member. The order of `GetFields`, and private
  fields of base classes, follow whatever field list is given.
- **`PropertyUtility.IsVisible`:** this code is not part of this model. It is
  a flag on each property record.
- **Animator controllers:** a controller is a list of layers, each with its
  state names. Sub-state machines and the rest of the asset graph are not
  modelled.
- **Controller through an override:** an override controller whose base is
  itself an override controller yields no controller, as the `as` cast does.
- **The `(MonoBehaviour)` cast in `DrawHandles`:** the cast is assumed to
  succeed.
- **Unity's fake-null objects and throwing property getters:** these are not
  modelled.
- **Object graphs:** these are finite trees. A cyclic graph, on which
  `DrawHandles` would recurse without end, cannot be expressed.
- **Culture:** comparisons are ordinal. `StartsWith(string)` and
  `IndexOf(string)` are culture-sensitive in .NET, but the model treats them
  as ordinal.
- **Parsing:** culture-specific signs and digits are not modelled in
  `int.Parse`. Neither are trailing NUL characters, which it accepts.
- PropertyPathWalk.Step: an index outside a `List<T>` throws
  `ArgumentOutOfRangeException` in .NET, but an array throws
  `IndexOutOfRangeException`. The model reports both as an index error.
- Numerics.Wrap32: it covers a single wrap-around, as in a sum or difference of two
  `int`s. That is every use in the drawer.

=== FILE: animator_state_drawer.dfy ===
/**
 * The decision logic of `AnimatorStatePropertyDrawer`: an `AnimationStateInfo`
 * field (a state `Name` and a `Layer` number) is edited through two popups,
 * one listing the layers of the animator controller found on the target
 * object and one listing the states of the chosen layer.
 *
 * The popups themselves are host UI: each is a function from the displayed
 * index and the option list to the index the user leaves selected.
 */
module AnimatorStateDrawer {
  import opened Wrappers
  import opened Numerics

  const NoneLabel := "(None)"
  const NoAnimatorLabel := "(No Animator)"
  const NoStateLabel := "(No State)"
  const StateInfoTypeName := "AnimationStateInfo"
  const WrongFieldMessage := "[AnimatorState] can only be used on AnimationStateInfo fields"

  /** A CLR array: its length and its length plus one are both 32-bit `int`s. */
  type ClrArray<T> = s: seq<T> | |s| < MaxInt32

  /** A controller layer: its name and the names of its state machine's states. */
  datatype AnimatorLayer = AnimatorLayer(name: string, stateNames: ClrArray<string>)

  datatype AnimatorController = AnimatorController(layers: ClrArray<AnimatorLayer>)

  /** What `Animator.runtimeAnimatorController` may hold. */
  datatype RuntimeController =
    | Controller(controller: AnimatorController)
    | OverrideController(overridden: Option<RuntimeController>)
    | OtherRuntimeController

  datatype Animator = Animator(runtimeController: Option<RuntimeController>)

  /** `[AnimatorState("field")]`: names the member of the target that holds the animator. */
  datatype AnimatorStateAttribute = AnimatorStateAttribute(animatorFieldName: string)

  /** A field or property as reflection reports it: whether its declared type is an `Animator`, and its value. */
  datatype Member = Member(assignableToAnimator: bool, value: Option<Animator>)

  /** The inspected object's instance fields and properties, by name. */
  datatype TargetObject = TargetObject(fields: map<string, Member>, properties: map<string, Member>)

  /** The serialized `AnimationStateInfo` value. */
  datatype AnimationStateInfo = AnimationStateInfo(name: string, layer: Int32)

  datatype SerializedPropertyType = Generic | OtherPropertyType

  /** The property being drawn: its serialized kind and its type name. */
  datatype DrawnProperty = DrawnProperty(propertyType: SerializedPropertyType, typeName: string)

  /** A popup as displayed: its options and the index shown as selected. */
  datatype Popup = Popup(options: seq<string>, selected: Int32)

  /** What one `OnGUI` pass leaves behind. */
  datatype DrawResult =
    | HelpBox(message: string)
    | Drawn(value: AnimationStateInfo, layerPopup: Popup, statePopup: Popup)
    | Threw(error: Exception, written: AnimationStateInfo)

  /** A popup's choice: the displayed index and the options go in, the selected index comes out. */
  type PopupChoice = (Int32, seq<string>) -> Int32

  /** The user leaves the popup alone. */
  function KeepSelection(selected: Int32, options: seq<string>): Int32 {
    selected
  }

  predicate ValidPopup(p: Popup) {
    0 <= p.selected < |p.options|
  }

  /** The popup only ever returns one of its option indices. */
  ghost predicate ReturnsOption(choice: PopupChoice) {
    forall selected: Int32, options: seq<string> ::
      0 <= selected < |options| ==> 0 <= choice(selected, options) < |options|
  }

  predicate IsStateInfoProperty(property: DrawnProperty) {
    property.propertyType == Generic && property.typeName == StateInfoTypeName
  }

  /**
   * `FindAnimator`: a field of the given name wins over a property of that
   * name; a member counts only when its type is assignable to `Animator`.
   */
  function FindAnimator(target: TargetObject, memberName: string): (r: Option<Animator>)
    ensures memberName in target.fields && target.fields[memberName].assignableToAnimator
            ==> r == target.fields[memberName].value
    ensures r.Some? ==>
              || (memberName in target.fields && target.fields[memberName].assignableToAnimator
                  && target.fields[memberName].value == r)
              || (memberName in target.properties && target.properties[memberName].assignableToAnimator
                  && target.properties[memberName].value == r)
    ensures (memberName !in target.fields || !target.fields[memberName].assignableToAnimator)
            && memberName in target.properties && target.properties[memberName].assignableToAnimator
            ==> r == target.properties[memberName].value
  {
    if memberName in target.fields && target.fields[memberName].assignableToAnimator then
      target.fields[memberName].value
    else if memberName in target.properties && target.properties[memberName].assignableToAnimator then
      target.properties[memberName].value
    else
      None
  }

  /** Once a matching field exists, the target's properties play no part. */
  lemma FieldShadowsProperty(fields: map<string, Member>, p1: map<string, Member>,
                             p2: map<string, Member>, memberName: string)
    requires memberName in fields && fields[memberName].assignableToAnimator
    ensures FindAnimator(TargetObject(fields, p1), memberName) == FindAnimator(TargetObject(fields, p2), memberName)
  {
  }

  /**
   * The editable controller behind an animator: a controller directly, or the
   * controller an override controller overrides. Anything else gives none.
   */
  function ResolveController(animator: Option<Animator>): (r: Option<AnimatorController>)
    ensures r.Some? ==> animator.Some? && animator.value.runtimeController.Some?
    ensures r.Some? ==>
              || animator.value.runtimeController.value == Controller(r.value)
              || animator.value.runtimeController.value == OverrideController(Some(Controller(r.value)))
    ensures animator.Some? && animator.value.runtimeController.Some? ==>
              forall c :: animator.value.runtimeController.value == Controller(c) ==> r == Some(c)
    ensures animator.Some? && animator.value.runtimeController.Some? ==>
              forall c :: animator.value.runtimeController.value == OverrideController(Some(Controller(c))) ==> r == Some(c)
  {
    match animator
    case None => None
    case Some(a) =>
      match a.runtimeController
      case Some(Controller(c)) => Some(c)
      case Some(OverrideController(Some(Controller(c)))) => Some(c)
      case _ => None
  }

  /** The layer popup's options: a sentinel, then one entry per layer. */
  function LayerOptions(controller: Option<AnimatorController>): (options: seq<string>)
    ensures controller.None? ==> options == [NoAnimatorLabel]
    ensures controller.Some? ==>
              && |options| == |controller.value.layers| + 1
              && options[0] == NoneLabel
              && forall i :: 0 <= i < |controller.value.layers| ==> options[i + 1] == controller.value.layers[i].name
  {
    match controller
    case None => [NoAnimatorLabel]
    case Some(c) => [NoneLabel] + LayerNames(c.layers)
  }

  /** The layers' names, in order. */
  function LayerNames(layers: seq<AnimatorLayer>): (names: seq<string>)
    ensures |names| == |layers|
    ensures forall i :: 0 <= i < |layers| ==> names[i] == layers[i].name
    decreases |layers|
  {
    if |layers| == 0 then [] else [layers[0].name] + LayerNames(layers[1..])
  }

  /**
   * The layer index shown in the popup: the stored layer shifted past the
   * sentinel and clamped into the option list. The shift is 32-bit, so the
   * largest `int` wraps round and shows the sentinel.
   */
  function DisplayedLayerIndex(layer: Int32, options: seq<string>): (r: Int32)
    requires 1 <= |options| <= MaxInt32
    ensures 0 <= r < |options|
    ensures -1 <= layer < |options| - 1 ==> r == layer + 1
    ensures layer < -1 ==> r == 0
    ensures |options| - 1 <= layer < MaxInt32 ==> r == |options| - 1
    ensures layer == MaxInt32 ==> r == 0
  {
    Clamp(Wrap32(layer + 1), 0, |options| - 1)
  }

  /** The layer a popup result denotes once the sentinel is taken off; never below -1. */
  function StoredLayer(pick: Int32): (r: Int32)
    ensures r >= -1
    ensures pick >= 0 ==> r == pick - 1
    ensures MinInt32 < pick <= 0 ==> r == -1
    ensures pick == MinInt32 ==> r == MaxInt32
  {
    Max(Wrap32(pick - 1), -1)
  }

  /**
   * The state popup's options: a sentinel, then the states of the chosen
   * layer, when a controller exists and a layer is chosen; otherwise the
   * single "no state" entry. A layer past the controller's last throws.
   */
  function StateOptions(controller: Option<AnimatorController>, layerIndex: Int32): (r: Result<seq<string>, Exception>)
    ensures r.Failure? <==> controller.Some? && layerIndex >= |controller.value.layers|
    ensures r.Failure? ==> r.error == IndexOutOfRange
    ensures r.Success? && (controller.None? || layerIndex < 0) ==> r.value == [NoStateLabel]
    ensures r.Success? && controller.Some? && layerIndex >= 0 ==>
              var states := controller.value.layers[layerIndex].stateNames;
              && |r.value| == |states| + 1
              && r.value[0] == NoneLabel
              && forall i :: 0 <= i < |states| ==> r.value[i + 1] == states[i]
    ensures r.Success? ==> 1 <= |r.value| <= MaxInt32
  {
    if controller.Some? && layerIndex >= 0 then
      var layers := controller.value.layers;
      if layerIndex < |layers| then
        var states := layers[layerIndex].stateNames;
        Success([NoneLabel] + states)
      else
        Failure(IndexOutOfRange)
    else
      Success([NoStateLabel])
  }

  /**
   * The state index shown in the popup: the last option after the sentinel
   * that equals the stored name, or the sentinel when none does.
   */
  function DisplayedStateIndex(options: seq<string>, name: string): (r: nat)
    ensures r == 0 || r < |options|
    ensures r > 0 ==> options[r] == name
    ensures forall i :: r < i < |options| && 1 <= i ==> options[i] != name
    decreases |options|
  {
    if |options| <= 1 then 0
    else if options[|options| - 1] == name then |options| - 1
    else DisplayedStateIndex(options[..|options| - 1], name)
  }

  /** The scan as the drawer writes it: forward over the options, remembering the latest match. */
  method ScanStateIndex(options: seq<string>, name: string) returns (stateIndex: nat)
    ensures stateIndex == DisplayedStateIndex(options, name)
  {
    stateIndex := 0;
    var i := 1;
    while i < |options|
      invariant 1 <= i
      invariant stateIndex == 0 || stateIndex < i <= |options|
      invariant stateIndex == DisplayedStateIndex(options[..if i <= |options| then i else |options|], name)
    {
      assert options[..i + 1][..i] == options[..i];
      if options[i] == name {
        stateIndex := i;
      }
      i := i + 1;
    }
    if |options| > 0 {
      assert options[..|options|] == options;
    }
  }

  /** The name a state popup result denotes: the chosen state, or `""` for the sentinel. */
  function StoredName(options: seq<string>, pick: Int32): (r: Result<string, Exception>)
    ensures pick <= 0 ==> r == Success("")
    ensures 0 < pick < |options| ==> r == Success(options[pick])
    ensures pick > 0 && pick >= |options| ==> r == Failure(IndexOutOfRange)
  {
    if pick > 0 then
      if pick < |options| then Success(options[pick]) else Failure(IndexOutOfRange)
    else
      Success("")
  }

  /**
   * `OnGUI`: checks the field's type, finds the controller, then draws the
   * two popups.
   */
  function OnGUI(property: DrawnProperty, stored: AnimationStateInfo, attr: AnimatorStateAttribute,
                 target: TargetObject, layerPopup: PopupChoice, statePopup: PopupChoice): (r: DrawResult)
    ensures r.HelpBox? <==> !IsStateInfoProperty(property)
    ensures r.HelpBox? ==> r.message == WrongFieldMessage
    ensures r.Drawn? ==> ValidPopup(r.layerPopup) && ValidPopup(r.statePopup)
    ensures r.Drawn? ==> r.value.layer >= -1 && r.layerPopup.options[0] in {NoneLabel, NoAnimatorLabel}
    ensures r.Drawn? ==> r.layerPopup.options == LayerOptions(ResolveController(FindAnimator(target, attr.animatorFieldName)))
    ensures r.Drawn? ==> r.layerPopup.selected == DisplayedLayerIndex(stored.layer, r.layerPopup.options)
    ensures r.Drawn? ==> r.value.layer == StoredLayer(layerPopup(r.layerPopup.selected, r.layerPopup.options))
    ensures r.Drawn? ==> r.statePopup.selected == DisplayedStateIndex(r.statePopup.options, stored.name)
    ensures r.Drawn? ==>
              StoredName(r.statePopup.options, statePopup(r.statePopup.selected, r.statePopup.options)) == Success(r.value.name)
    ensures r.Drawn? ==>
              StateOptions(ResolveController(FindAnimator(target, attr.animatorFieldName)), r.value.layer)
              == Success(r.statePopup.options)
    ensures r.Threw? ==>
              var layerOptions := LayerOptions(ResolveController(FindAnimator(target, attr.animatorFieldName)));
              && r.error == IndexOutOfRange
              && r.written == stored.(layer := StoredLayer(layerPopup(DisplayedLayerIndex(stored.layer, layerOptions), layerOptions)))
  {
    if !IsStateInfoProperty(property) then
      HelpBox(WrongFieldMessage)
    else
      DrawPopups(ResolveController(FindAnimator(target, attr.animatorFieldName)), stored, layerPopup, statePopup)
  }

  /**
   * The two popups of `OnGUI` for the controller found: show the layer popup
   * and store its result, then show the state popup for the chosen layer and
   * store its result. `Layer` is written before the state options are built,
   * so it stays written when a later step throws.
   */
  function DrawPopups(controller: Option<AnimatorController>, stored: AnimationStateInfo,
                      layerPopup: PopupChoice, statePopup: PopupChoice): (r: DrawResult)
    ensures !r.HelpBox?
    ensures r.Drawn? ==> ValidPopup(r.layerPopup) && ValidPopup(r.statePopup)
    ensures r.Drawn? ==> r.value.layer >= -1 && r.layerPopup.options[0] in {NoneLabel, NoAnimatorLabel}
    ensures r.Drawn? ==> r.layerPopup.options == LayerOptions(controller)
    ensures r.Drawn? ==> r.layerPopup.selected == DisplayedLayerIndex(stored.layer, r.layerPopup.options)
    ensures r.Drawn? ==> r.value.layer == StoredLayer(layerPopup(r.layerPopup.selected, r.layerPopup.options))
    ensures r.Drawn? ==> r.statePopup.selected == DisplayedStateIndex(r.statePopup.options, stored.name)
    ensures r.Drawn? ==>
              StoredName(r.statePopup.options, statePopup(r.statePopup.selected, r.statePopup.options)) == Success(r.value.name)
    ensures r.Drawn? ==> StateOptions(controller, r.value.layer) == Success(r.statePopup.options)
    ensures r.Threw? ==>
              var layerOptions := LayerOptions(controller);
              && r.error == IndexOutOfRange
              && r.written == stored.(layer := StoredLayer(layerPopup(DisplayedLayerIndex(stored.layer, layerOptions), layerOptions)))
  {
    var layerOptions := LayerOptions(controller);
    var layerIndex := DisplayedLayerIndex(stored.layer, layerOptions);
    DrawStatePopup(controller, stored, Popup(layerOptions, layerIndex), layerPopup(layerIndex, layerOptions), statePopup)
  }

  /**
   * After the layer popup returned `pickedLayer`: write `Layer`, build the
   * state options for the picked layer and show the state popup.
   */
  function DrawStatePopup(controller: Option<AnimatorController>, stored: AnimationStateInfo,
                          layerShown: Popup, pickedLayer: Int32, statePopup: PopupChoice): (r: DrawResult)
    ensures !r.HelpBox?
    ensures r.Drawn? ==> r.layerPopup == layerShown && r.value.layer == StoredLayer(pickedLayer) && ValidPopup(r.statePopup)
    ensures r.Threw? ==> r.error == IndexOutOfRange && r.written == stored.(layer := StoredLayer(pickedLayer))
    ensures r.Drawn? ==> StateOptions(controller, r.value.layer) == Success(r.statePopup.options)
    ensures r.Drawn? ==> r.statePopup.selected == DisplayedStateIndex(r.statePopup.options, stored.name)
    ensures r.Drawn? ==>
              StoredName(r.statePopup.options, statePopup(r.statePopup.selected, r.statePopup.options)) == Success(r.value.name)
  {
    var layer := StoredLayer(pickedLayer);
    SameStateOptions(controller, pickedLayer);
    match StateOptions(controller, Wrap32(pickedLayer - 1))
    case Failure(e) => Threw(e, stored.(layer := layer))
    case Success(stateOptions) =>
      var stateIndex := DisplayedStateIndex(stateOptions, stored.name);
      StoreState(stored.(layer := layer), layerShown, Popup(stateOptions, stateIndex), statePopup(stateIndex, stateOptions))
  }

  /**
   * The stored layer and the unclamped `pick - 1` select the same state
   * options: every negative layer shows the "no state" entry.
   */
  lemma SameStateOptions(controller: Option<AnimatorController>, pick: Int32)
    ensures StateOptions(controller, StoredLayer(pick)) == StateOptions(controller, Wrap32(pick as int - 1))
  {
  }

  /** After the state popup returned `pickedState`: write `Name`, which throws past the last option. */
  function StoreState(written: AnimationStateInfo, layerShown: Popup, stateShown: Popup, pickedState: Int32): (r: DrawResult)
    ensures r.Drawn? <==> pickedState <= 0 || pickedState < |stateShown.options|
    ensures r.Drawn? ==> r == Drawn(written.(name := r.value.name), layerShown, stateShown)
    ensures r.Drawn? ==> StoredName(stateShown.options, pickedState) == Success(r.value.name)
    ensures !r.Drawn? ==> r == Threw(IndexOutOfRange, written)
  {
    match StoredName(stateShown.options, pickedState)
    case Failure(e) => Threw(e, written)
    case Success(name) => Drawn(written.(name := name), layerShown, stateShown)
  }

  /** A stored layer survives an untouched layer popup exactly when it names the sentinel or a layer. */
  lemma LayerSelectionRoundTrip(layer: Int32, options: seq<string>)
    requires 1 <= |options| <= MaxInt32
    ensures StoredLayer(DisplayedLayerIndex(layer, options)) == layer <==> -1 <= layer <= |options| - 2
  {
  }

  /** With a controller, an in-range stored layer is displayed on that layer's own name. */
  lemma DisplayedLayerIsStoredLayer(controller: AnimatorController, layer: Int32)
    requires 0 <= layer < |controller.layers|
    ensures LayerOptions(Some(controller))[DisplayedLayerIndex(layer, LayerOptions(Some(controller)))]
            == controller.layers[layer].name
  {
  }

  /**
   * A stored name survives an untouched state popup when some state after the
   * sentinel carries it; otherwise it is cleared to `""`.
   */
  lemma StateSelectionRoundTrip(options: seq<string>, name: string)
    requires 1 <= |options| <= MaxInt32
    ensures StoredName(options, DisplayedStateIndex(options, name))
            == Success(if name in options[1..] then name else "")
  {
    var r := DisplayedStateIndex(options, name);
    if name in options[1..] {
      var j :| 0 <= j < |options[1..]| && options[1..][j] == name;
      assert options[j + 1] == name;
    }
  }

  /** The layer popup's pick is what the state step receives. */
  lemma LayerPopupStep(controller: Option<AnimatorController>, stored: AnimationStateInfo,
                       layerPopup: PopupChoice, statePopup: PopupChoice)
    ensures var layerOptions := LayerOptions(controller);
            var layerIndex := DisplayedLayerIndex(stored.layer, layerOptions);
            DrawPopups(controller, stored, layerPopup, statePopup)
            == DrawStatePopup(controller, stored, Popup(layerOptions, layerIndex), layerPopup(layerIndex, layerOptions), statePopup)
  {
  }

  /** When the state options exist, the state popup's pick is what gets stored. */
  lemma StatePopupStep(controller: Option<AnimatorController>, stored: AnimationStateInfo, layerShown: Popup,
                       pickedLayer: Int32, statePopup: PopupChoice)
    requires StateOptions(controller, Wrap32(pickedLayer - 1)).Success?
    ensures var stateOptions := StateOptions(controller, Wrap32(pickedLayer - 1)).value;
            var stateIndex := DisplayedStateIndex(stateOptions, stored.name);
            DrawStatePopup(controller, stored, layerShown, pickedLayer, statePopup)
            == StoreState(stored.(layer := StoredLayer(pickedLayer)), layerShown, Popup(stateOptions, stateIndex),
                          statePopup(stateIndex, stateOptions))
  {
  }

  /**
   * After an untouched layer popup, the state options of the displayed layer
   * exist and an untouched state popup stores the name its index denotes.
   */
  lemma KeptStatePopup(controller: Option<AnimatorController>, stored: AnimationStateInfo,
                       layerShown: Popup, layerIndex: Int32)
    requires 0 <= layerIndex < |LayerOptions(controller)|
    ensures var r := DrawStatePopup(controller, stored, layerShown, layerIndex, KeepSelection);
            && r.Drawn?
            && r.layerPopup == layerShown
            && r.value.layer == layerIndex - 1
            && StateOptions(controller, layerIndex - 1) == Success(r.statePopup.options)
            && r.statePopup.selected == DisplayedStateIndex(r.statePopup.options, stored.name)
            && r.value.name == if r.statePopup.selected == 0 then "" else r.statePopup.options[r.statePopup.selected]
  {
    assert Wrap32(layerIndex - 1) == layerIndex - 1;
    StatePopupStep(controller, stored, layerShown, layerIndex, KeepSelection);
  }

  /** The outcome of one pass with both popups left alone, spelled out. */
  lemma UntouchedOutcome(controller: Option<AnimatorController>, stored: AnimationStateInfo)
    ensures var r := DrawPopups(controller, stored, KeepSelection, KeepSelection);
            && r.Drawn?
            && r.layerPopup == Popup(LayerOptions(controller), DisplayedLayerIndex(stored.layer, LayerOptions(controller)))
            && r.value.layer == r.layerPopup.selected - 1
            && StateOptions(controller, r.value.layer) == Success(r.statePopup.options)
            && r.statePopup.selected == DisplayedStateIndex(r.statePopup.options, stored.name)
            && r.value.name == if r.statePopup.selected == 0 then "" else r.statePopup.options[r.statePopup.selected]
  {
    var layerOptions := LayerOptions(controller);
    var layerIndex := DisplayedLayerIndex(stored.layer, layerOptions);
    LayerPopupStep(controller, stored, KeepSelection, KeepSelection);
    KeptStatePopup(controller, stored, Popup(layerOptions, layerIndex), layerIndex);
  }

  /**
   * One pass with both popups left alone keeps the stored layer exactly when
   * it is `-1` or a layer's index, and always stores one of those.
   */
  lemma UntouchedLayer(controller: Option<AnimatorController>, stored: AnimationStateInfo)
    ensures var r := DrawPopups(controller, stored, KeepSelection, KeepSelection);
            && r.Drawn?
            && (r.value.layer == stored.layer <==> -1 <= stored.layer <= |r.layerPopup.options| - 2)
            && -1 <= r.value.layer <= |r.layerPopup.options| - 2
            && StateOptions(controller, r.value.layer) == Success(r.statePopup.options)
  {
    UntouchedOutcome(controller, stored);
    LayerSelectionRoundTrip(stored.layer, LayerOptions(controller));
  }

  /**
   * One pass with both popups left alone keeps the stored name exactly when
   * it is empty or one of the listed states, and always stores one of those.
   */
  lemma UntouchedName(controller: Option<AnimatorController>, stored: AnimationStateInfo)
    ensures var r := DrawPopups(controller, stored, KeepSelection, KeepSelection);
            && r.Drawn?
            && (r.value.name == stored.name <==> stored.name == "" || stored.name in r.statePopup.options[1..])
            && (r.value.name == "" || r.value.name in r.statePopup.options[1..])
  {
    var r := DrawPopups(controller, stored, KeepSelection, KeepSelection);
    UntouchedOutcome(controller, stored);
    StateSelectionRoundTrip(r.statePopup.options, stored.name);
  }

  /** Both halves of an untouched pass together. */
  lemma UntouchedPopups(controller: Option<AnimatorController>, stored: AnimationStateInfo)
    ensures var r := DrawPopups(controller, stored, KeepSelection, KeepSelection);
            && r.Drawn?
            && (r.value.layer == stored.layer <==> -1 <= stored.layer <= |r.layerPopup.options| - 2)
            && (r.value.name == stored.name <==> stored.name == "" || stored.name in r.statePopup.options[1..])
            && -1 <= r.value.layer <= |r.layerPopup.options| - 2
            && (r.value.name == "" || r.value.name in r.statePopup.options[1..])
            && StateOptions(controller, r.value.layer) == Success(r.statePopup.options)
  {
    UntouchedLayer(controller, stored);
    UntouchedName(controller, stored);
  }

  /** Drawing the value one untouched pass produced changes it no further. */
  lemma RedrawIsStable(controller: Option<AnimatorController>, stored: AnimationStateInfo)
    ensures var first := DrawPopups(controller, stored, KeepSelection, KeepSelection);
            var second := DrawPopups(controller, first.value, KeepSelection, KeepSelection);
            first.Drawn? && second.Drawn? && second.value == first.value
  {
    var first := DrawPopups(controller, stored, KeepSelection, KeepSelection);
    UntouchedPopups(controller, stored);
    var second := DrawPopups(controller, first.value, KeepSelection, KeepSelection);
    UntouchedPopups(controller, first.value);
    assert second.value.layer == first.value.layer;
    assert second.statePopup.options == first.statePopup.options;
  }

  /**
   * When both popups return one of their own option indices, nothing throws:
   * the layer lands in [-1, layers - 1] and the name is empty or a listed state.
   */
  lemma OptionChoicesNeverThrow(controller: Option<AnimatorController>, stored: AnimationStateInfo,
                                layerPopup: PopupChoice, statePopup: PopupChoice)
    requires ReturnsOption(layerPopup) && ReturnsOption(statePopup)
    ensures var r := DrawPopups(controller, stored, layerPopup, statePopup);
            && r.Drawn?
            && -1 <= r.value.layer <= |r.layerPopup.options| - 2
            && (r.value.name == "" || r.value.name in r.statePopup.options[1..])
  {
    var layerOptions := LayerOptions(controller);
    var layerIndex := DisplayedLayerIndex(stored.layer, layerOptions);
    var pickedLayer := layerPopup(layerIndex, layerOptions);
    LayerPopupStep(controller, stored, layerPopup, statePopup);
    OptionStatePick(controller, stored, Popup(layerOptions, layerIndex), pickedLayer, statePopup);
  }

  /** After a layer pick among the layer options, a state popup that returns one of its options completes the pass. */
  lemma OptionStatePick(controller: Option<AnimatorController>, stored: AnimationStateInfo, layerShown: Popup,
                        pickedLayer: Int32, statePopup: PopupChoice)
    requires ReturnsOption(statePopup)
    requires 0 <= pickedLayer < |LayerOptions(controller)|
    ensures var r := DrawStatePopup(controller, stored, layerShown, pickedLayer, statePopup);
            && r.Drawn?
            && r.value.layer == pickedLayer - 1
            && (r.value.name == "" || r.value.name in r.statePopup.options[1..])
  {
    var stateOptions := StateOptions(controller, Wrap32(pickedLayer - 1)).value;
    var stateIndex := DisplayedStateIndex(stateOptions, stored.name);
    var pickedState := statePopup(stateIndex, stateOptions);
    if pickedState > 0 {
      assert stateOptions[1..][pickedState - 1] == stateOptions[pickedState];
    }
    StatePopupStep(controller, stored, layerShown, pickedLayer, statePopup);
  }

  /**
   * With a controller, a layer pick that denotes no layer of it (one past the
   * last, or `int.MinValue`, whose decrement wraps) throws while building the
   * state options; `Layer` has already been written by then.
   */
  lemma PickPastLastLayerThrows(controller: Option<AnimatorController>, stored: AnimationStateInfo,
                                layerPopup: PopupChoice, statePopup: PopupChoice)
    requires controller.Some?
    requires var layerOptions := LayerOptions(controller);
             var pickedLayer := layerPopup(DisplayedLayerIndex(stored.layer, layerOptions), layerOptions);
             pickedLayer > |controller.value.layers| || pickedLayer == MinInt32
    ensures var layerOptions := LayerOptions(controller);
            var pickedLayer := layerPopup(DisplayedLayerIndex(stored.layer, layerOptions), layerOptions);
            DrawPopups(controller, stored, layerPopup, statePopup)
            == Threw(IndexOutOfRange, stored.(layer := if pickedLayer == MinInt32 then MaxInt32 else pickedLayer - 1))
  {
    var layerOptions := LayerOptions(controller);
    var layerIndex := DisplayedLayerIndex(stored.layer, layerOptions);
    LayerPopupStep(controller, stored, layerPopup, statePopup);
    var pickedLayer := layerPopup(layerIndex, layerOptions);
    assert StateOptions(controller, Wrap32(pickedLayer as int - 1)).Failure?;
  }

  /**
   * On an `AnimationStateInfo` field, popups that return one of their own
   * option indices always complete the pass, whatever animator the target holds.
   */
  lemma OnGUINeverThrows(property: DrawnProperty, stored: AnimationStateInfo, attr: AnimatorStateAttribute,
                         target: TargetObject, layerPopup: PopupChoice, statePopup: PopupChoice)
    requires IsStateInfoProperty(property)
    requires ReturnsOption(layerPopup) && ReturnsOption(statePopup)
    ensures var r := OnGUI(property, stored, attr, target, layerPopup, statePopup);
            && r.Drawn?
            && r.layerPopup.options == LayerOptions(ResolveController(FindAnimator(target, attr.animatorFieldName)))
            && -1 <= r.value.layer <= |r.layerPopup.options| - 2
            && (r.value.name == "" || r.value.name in r.statePopup.options[1..])
  {
    OptionChoicesNeverThrow(ResolveController(FindAnimator(target, attr.animatorFieldName)), stored, layerPopup, statePopup);
  }
}

=== FILE: handle_editor.dfy ===
/**
 * `HandleEditor`: on every `OnSceneGUI` call from the scene view, walk the inspected object's
 * fields, find those marked `[Handle]`, and draw a position handle for each
 * `Vector3` field (or each `Vector3` element of a list field) whose
 * serialized property exists and is visible together with all its ancestors.
 *
 * Reflection is replaced by a field tree, the serialized object by a map
 * from property paths to property records, and `PropertyUtility.IsVisible`
 * by a flag on each record.
 */
module HandleEditor {
  import opened Wrappers
  import opened Text

  /** Where a handle's stored position lives: in the owner's local space or in world space. */
  datatype HandleType = Local | Global

  /** `[Handle]` written without an argument. */
  const DefaultHandleType := Local

  /** The handle type a `[Handle]` attribute records: its argument, or the default when it has none. */
  function HandleAttribute(argument: Option<HandleType>): (t: HandleType)
    ensures argument.Some? ==> t == argument.value
    ensures argument.None? ==> t == Local
  {
    if argument.Some? then argument.value else DefaultHandleType
  }

  /** What reflection reports of a field's declared type. */
  datatype FieldType = FieldType(isVector3: bool, isList: bool, isSerializable: bool, isPrimitive: bool, isString: bool)

  /**
   * A field of a declared type, with its `[Handle]` attribute if any and the
   * value it holds in the object being walked.
   */
  datatype Field = Field(name: string, handle: Option<HandleType>, fieldType: FieldType, value: Value)

  /** An object reached by the walk: `null`, or the fields of its declared type. */
  datatype Value = Null | Instance(fields: seq<Field>)

  datatype PropertyType = Vector3Property | OtherProperty

  /** A serialized property: its visibility, and its elements' types when it is an array. */
  datatype SerializedProperty = SerializedProperty(visible: bool, isArray: bool, elementTypes: seq<PropertyType>)

  /** The serialized object: the properties `FindProperty` can find, by path. */
  datatype SerializedObject = SerializedObject(properties: map<string, SerializedProperty>)

  /** What a handle edits: a whole property, or one element of an array property. */
  datatype HandleTarget = Whole(path: string) | Element(path: string, index: nat)

  datatype HandleDraw = HandleDraw(target: HandleTarget, handleType: HandleType)

  /** A field without `[Handle]` whose value the walk descends into, provided it is not null. */
  predicate Descends(f: Field) {
    f.handle.None? && f.fieldType.isSerializable && !f.fieldType.isPrimitive && !f.fieldType.isString
  }

  /** A dotted property path from its segments. */
  function JoinPath(names: seq<string>): string {
    Join(names, '.')
  }

  /** A path cut at its last `.`, or nothing when it has none. */
  function ParentPath(path: string): (r: Option<string>)
    ensures r.None? <==> '.' !in path
    ensures r.Some? ==> |r.value| < |path| && path[..|r.value|] == r.value && path[|r.value|] == '.'
    ensures r.Some? ==> '.' !in path[|r.value| + 1..]
  {
    var k := LastIndexOf(path, '.');
    if k < 0 then None
    else
      var tail := path[k + 1..];
      assert forall j :: 0 <= j < |tail| ==> tail[j] == path[k + 1 + j];
      Some(path[..k])
  }

  /**
   * The properties the visibility walk inspects: the property itself, then
   * each found parent, stopping at a path without `.` or at a parent that
   * `FindProperty` does not find. A path that is not found has none.
   */
  function Ancestry(so: SerializedObject, path: string): seq<string>
    decreases |path|
  {
    if path !in so.properties then []
    else
      match ParentPath(path)
      case None => [path]
      case Some(parent) => [path] + Ancestry(so, parent)
  }

  /**
   * The ancestry starts at the property, lists only found properties, each
   * the parent path of the one before it and strictly shorter, and ends
   * where the path has no `.` or the parent is not found.
   */
  lemma {:induction false} AncestryChain(so: SerializedObject, path: string)
    ensures var chain := Ancestry(so, path);
            && (path !in so.properties <==> chain == [])
            && (path in so.properties ==> chain[0] == path)
            && (forall i :: 0 <= i < |chain| ==> chain[i] in so.properties)
            && (forall i :: 0 < i < |chain| ==> ParentPath(chain[i - 1]) == Some(chain[i]))
            && (forall i :: 0 < i < |chain| ==> |chain[i]| < |chain[i - 1]|)
            && (|chain| > 0 ==> var last := chain[|chain| - 1];
                                ParentPath(last).None? || ParentPath(last).value !in so.properties)
    decreases |path|
  {
    var chain := Ancestry(so, path);
    if path in so.properties && ParentPath(path).Some? {
      var parent := ParentPath(path).value;
      var rest := Ancestry(so, parent);
      AncestryChain(so, parent);
      assert chain == [path] + rest;
      assert forall i :: 0 < i < |chain| ==> chain[i] == rest[i - 1];
      assert rest != [] ==> chain[|chain| - 1] == rest[|rest| - 1];
    }
  }

  /** Visible in the hierarchy: every property of the ancestry is visible. */
  predicate VisibleInHierarchy(so: SerializedObject, path: string) {
    var chain := Ancestry(so, path);
    forall i :: 0 <= i < |chain| ==> chain[i] in so.properties && so.properties[chain[i]].visible
  }

  /** A found property is visible in the hierarchy iff it is visible and its found parent, if any, is too. */
  lemma VisibleInHierarchyStep(so: SerializedObject, path: string)
    requires path in so.properties
    ensures VisibleInHierarchy(so, path) <==>
              && so.properties[path].visible
              && (ParentPath(path).Some? && ParentPath(path).value in so.properties
                  ==> VisibleInHierarchy(so, ParentPath(path).value))
  {
    var chain := Ancestry(so, path);
    AncestryChain(so, path);
    if ParentPath(path).Some? {
      var parent := ParentPath(path).value;
      var rest := Ancestry(so, parent);
      AncestryChain(so, parent);
      assert chain == [path] + rest;
      assert forall i :: 0 < i < |chain| ==> chain[i] == rest[i - 1];
      if VisibleInHierarchy(so, path) && parent in so.properties {
        forall j | 0 <= j < |rest|
          ensures rest[j] in so.properties && so.properties[rest[j]].visible
        {
          assert chain[j + 1] == rest[j];
        }
      }
      if so.properties[path].visible && (parent in so.properties ==> VisibleInHierarchy(so, parent)) {
        forall i | 0 <= i < |chain|
          ensures chain[i] in so.properties && so.properties[chain[i]].visible
        {
          if i > 0 {
            assert chain[i] == rest[i - 1];
          }
        }
      }
    }
  }

  /**
   * `IsVisibleInHierarchy`, as the editor writes it: test the property, then
   * move to the property found at the path cut at its last `.`, until there
   * is no `.` or no such property. The property is given by its path; a path
   * that is not found stands for `null`.
   */
  method IsVisibleInHierarchy(so: SerializedObject, path: string) returns (visible: bool)
    ensures visible == VisibleInHierarchy(so, path)
  {
    var current: Option<string> := if path in so.properties then Some(path) else None;
    while current.Some?
      invariant current.Some? ==> current.value in so.properties
      invariant VisibleInHierarchy(so, path) == (current.None? || VisibleInHierarchy(so, current.value))
      decreases if current.Some? then |current.value| + 1 else 0
    {
      var p := current.value;
      VisibleInHierarchyStep(so, p);
      if !so.properties[p].visible {
        return false;
      }
      current := if '.' in p && ParentPath(p).value in so.properties then ParentPath(p) else None;
    }
    return true;
  }

  /** The indices of the `Vector3` elements, ascending. */
  function Vector3Indices(types: seq<PropertyType>): (r: seq<nat>)
    ensures forall k :: 0 <= k < |r| ==> r[k] < |types| && types[r[k]] == Vector3Property
    ensures forall k, l :: 0 <= k < l < |r| ==> r[k] < r[l]
    ensures forall i :: 0 <= i < |types| && types[i] == Vector3Property ==> i in r
    decreases |types|
  {
    if |types| == 0 then []
    else
      var last := |types| - 1;
      var prefix := Vector3Indices(types[..last]);
      assert forall i :: 0 <= i < last ==> types[..last][i] == types[i];
      if types[last] == Vector3Property then prefix + [last] else prefix
  }

  /** One element handle per index, in the order given. */
  function ElementHandles(path: string, indices: seq<nat>, handleType: HandleType): (r: seq<HandleDraw>)
    ensures |r| == |indices|
    ensures forall k :: 0 <= k < |indices| ==> r[k] == HandleDraw(Element(path, indices[k]), handleType)
    decreases |indices|
  {
    if |indices| == 0 then []
    else
      var last := |indices| - 1;
      ElementHandles(path, indices[..last], handleType) + [HandleDraw(Element(path, indices[last]), handleType)]
  }

  /** `DrawListHandles`: nothing for a non-array; otherwise one handle per `Vector3` element, in index order. */
  function ListHandles(property: SerializedProperty, path: string, handleType: HandleType): (r: seq<HandleDraw>)
    ensures !property.isArray ==> r == []
    ensures forall d :: d in r ==>
              && d.handleType == handleType && d.target.Element? && d.target.path == path
              && d.target.index < |property.elementTypes|
              && property.elementTypes[d.target.index] == Vector3Property
    ensures property.isArray ==>
              forall i :: 0 <= i < |property.elementTypes| && property.elementTypes[i] == Vector3Property
                ==> HandleDraw(Element(path, i), handleType) in r
    ensures forall k, l :: 0 <= k < l < |r| ==> r[k].target.index < r[l].target.index
  {
    if !property.isArray then []
    else
      var indices := Vector3Indices(property.elementTypes);
      var r := ElementHandles(path, indices, handleType);
      assert forall i :: i in indices ==> HandleDraw(Element(path, i), handleType) in r;
      r
  }

  /** The element loop as the editor writes it. */
  method DrawListHandles(property: SerializedProperty, path: string, handleType: HandleType)
    returns (draws: seq<HandleDraw>)
    ensures draws == ListHandles(property, path, handleType)
  {
    draws := [];
    if property.isArray {
      var types := property.elementTypes;
      var i := 0;
      while i < |types|
        invariant 0 <= i <= |types|
        invariant draws == ElementHandles(path, Vector3Indices(types[..i]), handleType)
      {
        Vector3IndicesExtend(types, i);
        if types[i] == Vector3Property {
          ElementHandlesExtend(path, Vector3Indices(types[..i]), i, handleType);
          draws := draws + [HandleDraw(Element(path, i), handleType)];
        }
        i := i + 1;
      }
      assert types[..|types|] == types;
    }
  }

  /** One more element type adds its index exactly when it is a `Vector3`. */
  lemma Vector3IndicesExtend(types: seq<PropertyType>, i: nat)
    requires i < |types|
    ensures Vector3Indices(types[..i + 1])
            == if types[i] == Vector3Property then Vector3Indices(types[..i]) + [i] else Vector3Indices(types[..i])
  {
    assert types[..i + 1][..i] == types[..i];
  }

  /** One more index adds its element handle at the end. */
  lemma ElementHandlesExtend(path: string, indices: seq<nat>, j: nat, handleType: HandleType)
    ensures ElementHandles(path, indices + [j], handleType)
            == ElementHandles(path, indices, handleType) + [HandleDraw(Element(path, j), handleType)]
  {
    assert (indices + [j])[..|indices|] == indices;
  }

  /**
   * The handles a `[Handle]` field gets: none unless its
   * property is found and visible in the hierarchy; then one for a `Vector3`
   * field, the list handles for a list field, none for anything else.
   */
  function FieldHandles(so: SerializedObject, f: Field, path: string): (r: seq<HandleDraw>)
    requires f.handle.Some?
    ensures r != [] ==> path in so.properties && VisibleInHierarchy(so, path)
    ensures forall d :: d in r ==> d.handleType == f.handle.value && d.target.path == path
    ensures forall d :: d in r && d.target.Whole? ==> f.fieldType.isVector3
    ensures forall d :: d in r && d.target.Element? ==>
              !f.fieldType.isVector3 && f.fieldType.isList && so.properties[path].isArray
    ensures path in so.properties && VisibleInHierarchy(so, path) && f.fieldType.isVector3
            ==> r == [HandleDraw(Whole(path), f.handle.value)]
    ensures path in so.properties && VisibleInHierarchy(so, path) && !f.fieldType.isVector3 && f.fieldType.isList
            ==> r == ListHandles(so.properties[path], path, f.handle.value)
  {
    if path in so.properties && VisibleInHierarchy(so, path) then
      if f.fieldType.isVector3 then [HandleDraw(Whole(path), f.handle.value)]
      else if f.fieldType.isList then ListHandles(so.properties[path], path, f.handle.value)
      else []
    else []
  }

  /**
   * `DrawHandles` over the fields of `owner` from the `i`-th on: a
   * `[Handle]` field draws at `prefix + name`; a field the walk descends into
   * contributes the handles of its non-null value under `prefix + name + "."`.
   */
  function DrawFields(so: SerializedObject, owner: Value, i: nat, prefix: string): (r: seq<HandleDraw>)
    requires owner.Instance? && i <= |owner.fields|
    ensures forall d :: d in r ==> d.target.path in so.properties && VisibleInHierarchy(so, d.target.path)
    ensures forall d :: d in r ==> StartsWith(d.target.path, prefix)
    decreases owner, |owner.fields| - i
  {
    if i == |owner.fields| then []
    else
      var f := owner.fields[i];
      var here :=
        if f.handle.Some? then FieldHandles(so, f, prefix + f.name)
        else if Descends(f) && f.value.Instance? then DrawFields(so, f.value, 0, prefix + f.name + ".")
        else [];
      here + DrawFields(so, owner, i + 1, prefix)
  }

  /** `OnSceneGUI`: the walk from the inspected object with an empty prefix. */
  function OnSceneGUI(so: SerializedObject, target: seq<Field>): (r: seq<HandleDraw>)
    ensures forall d :: d in r ==> d.target.path in so.properties && VisibleInHierarchy(so, d.target.path)
  {
    DrawFields(so, Instance(target), 0, "")
  }

  /**
   * A route from an object down to a `[Handle]` field: field indices, every
   * field before the last one being one the walk descends into.
   */
  ghost predicate IsHandleChain(owner: Value, route: seq<nat>)
    decreases |route|
  {
    && owner.Instance? && |route| >= 1 && route[0] < |owner.fields|
    && var f := owner.fields[route[0]];
       if |route| == 1 then f.handle.Some? else Descends(f) && IsHandleChain(f.value, route[1..])
  }

  /** The field names along a route. */
  ghost function RouteNames(owner: Value, route: seq<nat>): (names: seq<string>)
    requires IsHandleChain(owner, route)
    ensures |names| == |route|
    decreases |route|
  {
    var f := owner.fields[route[0]];
    if |route| == 1 then [f.name] else [f.name] + RouteNames(f.value, route[1..])
  }

  /** The `[Handle]` field a route ends at. */
  ghost function RouteEnd(owner: Value, route: seq<nat>): (f: Field)
    requires IsHandleChain(owner, route)
    ensures f.handle.Some?
    decreases |route|
  {
    var f := owner.fields[route[0]];
    if |route| == 1 then f else RouteEnd(f.value, route[1..])
  }

  /** A `[Handle]` field on its own is a route of length one. */
  lemma HandleFieldRoute(owner: Value, i: nat)
    requires owner.Instance? && i < |owner.fields| && owner.fields[i].handle.Some?
    ensures IsHandleChain(owner, [i])
    ensures RouteEnd(owner, [i]) == owner.fields[i]
    ensures RouteNames(owner, [i]) == [owner.fields[i].name]
  {
  }

  /** A route inside a descended field's value extends to a route from the owner, one name longer. */
  lemma DescendedRoute(owner: Value, i: nat, sub: seq<nat>, prefix: string)
    requires owner.Instance? && i < |owner.fields| && Descends(owner.fields[i])
    requires IsHandleChain(owner.fields[i].value, sub)
    ensures var f := owner.fields[i];
            var route := [i] + sub;
            && IsHandleChain(owner, route)
            && RouteEnd(owner, route) == RouteEnd(f.value, sub)
            && prefix + JoinPath(RouteNames(owner, route)) == prefix + f.name + "." + JoinPath(RouteNames(f.value, sub))
  {
    var f := owner.fields[i];
    var route := [i] + sub;
    assert route[0] == i && route[1..] == sub;
    assert IsHandleChain(owner, route);
    assert RouteNames(owner, route) == [f.name] + RouteNames(f.value, sub);
    JoinCons(f.name, RouteNames(f.value, sub), '.');
  }

  /**
   * Every handle the walk draws belongs to a `[Handle]` field reached by a
   * route of descended fields, and its property path is the prefix followed
   * by the route's field names joined with `.`.
   */
  lemma {:induction false} DrawsComeFromHandleFields(so: SerializedObject, owner: Value, i: nat, prefix: string)
    requires owner.Instance? && i <= |owner.fields|
    ensures forall d :: d in DrawFields(so, owner, i, prefix) ==>
              exists route :: IsHandleChain(owner, route) && i <= route[0]
                && d in FieldHandles(so, RouteEnd(owner, route), prefix + JoinPath(RouteNames(owner, route)))
    decreases owner, |owner.fields| - i
  {
    if i < |owner.fields| {
      var f := owner.fields[i];
      DrawsComeFromHandleFields(so, owner, i + 1, prefix);
      if f.handle.Some? {
        HandleFieldRoute(owner, i);
      } else if Descends(f) && f.value.Instance? {
        var inner := prefix + f.name + ".";
        DrawsComeFromHandleFields(so, f.value, 0, inner);
        forall d | d in DrawFields(so, f.value, 0, inner)
          ensures exists route :: IsHandleChain(owner, route) && i <= route[0]
                    && d in FieldHandles(so, RouteEnd(owner, route), prefix + JoinPath(RouteNames(owner, route)))
        {
          var sub :| IsHandleChain(f.value, sub)
                     && d in FieldHandles(so, RouteEnd(f.value, sub), inner + JoinPath(RouteNames(f.value, sub)));
          DescendedRoute(owner, i, sub, prefix);
          assert ([i] + sub)[0] == i;
        }
      }
    }
  }

  /**
   * Conversely, every handle a `[Handle]` field reached by such a route would
   * get at its dotted path is drawn by the walk.
   */
  lemma {:induction false} HandleFieldsAreDrawn(so: SerializedObject, owner: Value, i: nat, prefix: string,
                                                route: seq<nat>)
    requires owner.Instance? && i <= |owner.fields|
    requires IsHandleChain(owner, route) && i <= route[0]
    ensures forall d :: d in FieldHandles(so, RouteEnd(owner, route), prefix + JoinPath(RouteNames(owner, route)))
              ==> d in DrawFields(so, owner, i, prefix)
    decreases owner, |owner.fields| - i
  {
    var f := owner.fields[i];
    if route[0] > i {
      HandleFieldsAreDrawn(so, owner, i + 1, prefix, route);
    } else if |route| == 1 {
      assert route == [i];
      HandleFieldRoute(owner, i);
    } else {
      var sub := route[1..];
      var inner := prefix + f.name + ".";
      HandleFieldsAreDrawn(so, f.value, 0, inner, sub);
      assert route == [i] + sub;
      DescendedRoute(owner, i, sub, prefix);
    }
  }

  /** Handle `d` is one that the `[Handle]` field at the end of `route` gets at the route's dotted path. */
  ghost predicate DrawnAt(so: SerializedObject, root: Value, route: seq<nat>, d: HandleDraw) {
    IsHandleChain(root, route) && d in FieldHandles(so, RouteEnd(root, route), JoinPath(RouteNames(root, route)))
  }

  /** Every handle drawn by one `OnSceneGUI` call is drawn at the end of some route. */
  lemma SceneHandlesRouted(so: SerializedObject, target: seq<Field>, d: HandleDraw)
    requires d in OnSceneGUI(so, target)
    ensures exists route :: DrawnAt(so, Instance(target), route, d)
  {
    var root := Instance(target);
    DrawsComeFromHandleFields(so, root, 0, "");
    var route :| IsHandleChain(root, route) && 0 <= route[0]
                 && d in FieldHandles(so, RouteEnd(root, route), "" + JoinPath(RouteNames(root, route)));
    assert "" + JoinPath(RouteNames(root, route)) == JoinPath(RouteNames(root, route));
    assert DrawnAt(so, root, route, d);
  }

  /** Every handle a route's field gets at the route's path is drawn by every `OnSceneGUI` call. */
  lemma RoutedHandlesDrawn(so: SerializedObject, target: seq<Field>, route: seq<nat>, d: HandleDraw)
    requires DrawnAt(so, Instance(target), route, d)
    ensures d in OnSceneGUI(so, target)
  {
    var root := Instance(target);
    assert "" + JoinPath(RouteNames(root, route)) == JoinPath(RouteNames(root, route));
    HandleFieldsAreDrawn(so, root, 0, "", route);
  }

  /**
   * The handles drawn by one `OnSceneGUI` call are exactly those that the `[Handle]`
   * fields reachable through descended fields get at their dotted paths.
   */
  lemma SceneHandles(so: SerializedObject, target: seq<Field>, d: HandleDraw)
    ensures d in OnSceneGUI(so, target) <==> exists route :: DrawnAt(so, Instance(target), route, d)
  {
    if d in OnSceneGUI(so, target) {
      SceneHandlesRouted(so, target, d);
    }
    if exists route :: DrawnAt(so, Instance(target), route, d) {
      var route :| DrawnAt(so, Instance(target), route, d);
      RoutedHandlesDrawn(so, target, route, d);
    }
  }

  /** What `DrawHandle` leaves: whether undo was recorded, the property's value, whether it was applied. */
  datatype HandleEdit<V> = HandleEdit(undoRecorded: bool, value: V, applied: bool)

  /** Where the handle is shown: the stored position for `Global`, mapped to world space for `Local`. */
  function ShownPosition<V>(handleType: HandleType, stored: V, toWorld: V -> V): V {
    if handleType == Global then stored else toWorld(stored)
  }

  /**
   * `DrawHandle`: the stored position is shown as is for `Global` and through
   * the owner's transform for `Local`; `positionHandle` is where the user
   * leaves the handle and `changed` is the change check's verdict. Only a
   * detected change records undo and writes the property back, converting a
   * `Local` position back into the owner's space.
   */
  function DrawHandle<V(==)>(handleType: HandleType, stored: V, toWorld: V -> V, toLocal: V -> V,
                            positionHandle: V -> V, changed: bool): (r: HandleEdit<V>)
    ensures !changed ==> !r.undoRecorded && !r.applied && r.value == stored
    ensures changed ==> r.undoRecorded && r.applied
    ensures changed && handleType == Global ==> r.value == positionHandle(stored)
    ensures changed && handleType == Local ==> r.value == toLocal(positionHandle(toWorld(stored)))
  {
    var updated := positionHandle(ShownPosition(handleType, stored, toWorld));
    if changed then
      HandleEdit(true, if handleType == Global then updated else toLocal(updated), true)
    else
      HandleEdit(false, stored, false)
  }

  /**
   * A handle the user leaves where it was shown keeps the stored position,
   * change or not, provided the transform maps it back to itself.
   */
  lemma HandleLeftInPlace<V>(handleType: HandleType, stored: V, toWorld: V -> V, toLocal: V -> V,
                                 positionHandle: V -> V, changed: bool)
    requires toLocal(toWorld(stored)) == stored
    requires positionHandle(ShownPosition(handleType, stored, toWorld)) == ShownPosition(handleType, stored, toWorld)
    ensures DrawHandle(handleType, stored, toWorld, toLocal, positionHandle, changed).value == stored
  {
  }
}

=== FILE: numerics.dfy ===
/** 32-bit signed integers as C# and Unity's `Mathf` treat them. */
module Numerics {

  const MinInt32: int := -0x8000_0000
  const MaxInt32: int := 0x7FFF_FFFF
  const Modulus32: int := 0x1_0000_0000

  /** A C# `int`. */
  type Int32 = x: int | MinInt32 <= x <= MaxInt32

  /**
   * Two's-complement wrap-around of unchecked C# `int` arithmetic, for a sum
   * or difference of two `int`s, which can leave the range by at most one
   * turn of 2^32.
   */
  function Wrap32(x: int): (r: Int32)
    requires MinInt32 - Modulus32 <= x <= MaxInt32 + Modulus32
    ensures r == x || r == x - Modulus32 || r == x + Modulus32
    ensures MinInt32 <= x <= MaxInt32 ==> r == x
    ensures x > MaxInt32 ==> r < x
    ensures x < MinInt32 ==> r > x
  {
    if x > MaxInt32 then x - Modulus32 else if x < MinInt32 then x + Modulus32 else x
  }

  /** `Mathf.Clamp(int, int, int)`: the lower bound is tested first. */
  function Clamp(value: int, min: int, max: int): (r: int)
    ensures min <= max ==> min <= r <= max
    ensures min <= value <= max ==> r == value
    ensures value < min ==> r == min
    ensures min <= value && max < value ==> r == max
  {
    if value < min then min else if value > max then max else value
  }

  /** `Mathf.Max(int, int)`. */
  function Max(a: int, b: int): (r: int)
    ensures r >= a && r >= b
    ensures r == a || r == b
  {
    if a > b then a else b
  }
}

=== FILE: property_path_walk.dfy ===
/**
 * `GetParentObject` of the animator-state drawer: resolving a Unity property
 * path such as `waves.Array.data[2].spawn` against a live object by
 * reflection. Segments are separated by `.`; `Array` segments are skipped;
 * a `data[k]` segment indexes a list; any other segment reads a field.
 */
module PropertyPathWalk {
  import opened Wrappers
  import opened Numerics
  import opened Text

  const ArraySegment := "Array"
  const ElementPrefix := "data["

  /**
   * A runtime value as reflection sees it: `null`, or an object with its
   * instance fields by name and, when it implements `IList`, its elements.
   */
  datatype Value = Null | Object(fields: map<string, Value>, items: Option<seq<Value>>)

  /** A segment with no special meaning: it names a field. */
  predicate IsFieldSegment(element: string) {
    element != ArraySegment && !StartsWith(element, ElementPrefix)
  }

  /**
   * The index a `data[...]` segment carries: the text between its first `[`
   * and its first `]`, parsed as an `int`. With no `]` the substring length
   * is negative, which throws.
   */
  function ElementIndex(element: string): (r: Result<Int32, Exception>)
    requires StartsWith(element, ElementPrefix)
    ensures IndexOf(element, ']') == -1 ==> r == Failure(ArgumentOutOfRange)
    ensures IndexOf(element, ']') >= 0 ==>
              |ElementPrefix| <= IndexOf(element, ']')
              && r == ParseInt32(element[|ElementPrefix|..IndexOf(element, ']')])
  {
    assert element[..|ElementPrefix|] == ElementPrefix;
    IndexOfFirst(element, '[', |ElementPrefix| - 1);
    var start := IndexOf(element, '[') + 1;
    var end := IndexOf(element, ']');
    if end == -1 then
      Failure(ArgumentOutOfRange)
    else
      assert forall j :: 0 <= j < |ElementPrefix| ==> element[j] == ElementPrefix[j];
      ParseInt32(element[start..end])
  }

  /** One iteration of the walk, on a non-null object. */
  function Step(obj: Value, element: string): (r: Result<Value, Exception>)
    requires obj.Object?
    ensures element == ArraySegment ==> r == Success(obj)
    ensures IsFieldSegment(element) ==>
              r == Success(if element in obj.fields then obj.fields[element] else Null)
    ensures StartsWith(element, ElementPrefix) && ElementIndex(element).Failure? ==>
              r == Failure(ElementIndex(element).error)
    ensures StartsWith(element, ElementPrefix) && ElementIndex(element).Success? && obj.items.None? ==>
              r == Success(Null)
    ensures StartsWith(element, ElementPrefix) && ElementIndex(element).Success? && obj.items.Some? ==>
              var k := ElementIndex(element).value;
              r == if 0 <= k < |obj.items.value| then Success(obj.items.value[k]) else Failure(IndexOutOfRange)
  {
    if element == ArraySegment then
      Success(obj)
    else if StartsWith(element, ElementPrefix) then
      match ElementIndex(element)
      case Failure(e) => Failure(e)
      case Success(index) =>
        match obj.items
        case None => Success(Null)
        case Some(list) => if 0 <= index < |list| then Success(list[index]) else Failure(IndexOutOfRange)
    else
      Success(if element in obj.fields then obj.fields[element] else Null)
  }

  /**
   * The loop over the segments. Reaching `null` ends the walk with `null`
   * before any later segment is looked at; only `data[...]` segments throw.
   */
  function Walk(obj: Value, elements: seq<string>): (r: Result<Value, Exception>)
    ensures |elements| == 0 ==> r == Success(obj)
    ensures obj.Null? ==> r == Success(Null)
    ensures obj.Object? && |elements| == 1 ==> r == Step(obj, elements[0])
    ensures r.Failure? ==> exists i :: 0 <= i < |elements| && StartsWith(elements[i], ElementPrefix)
    decreases |elements|
  {
    if |elements| == 0 then Success(obj)
    else if obj.Null? then Success(Null)
    else
      match Step(obj, elements[0])
      case Failure(e) => Failure(e)
      case Success(next) =>
        assert forall i :: 0 <= i < |elements[1..]| ==> elements[1..][i] == elements[i + 1];
        Walk(next, elements[1..])
  }

  /** `GetParentObject(root, path)`. */
  function GetParentObject(root: Value, path: string): (r: Result<Value, Exception>)
    ensures root.Null? ==> r == Success(Null)
    ensures r.Failure? ==> exists i :: 0 <= i < |Split(path, '.')| && StartsWith(Split(path, '.')[i], ElementPrefix)
    ensures root.Object? && '.' !in path ==> r == Step(root, path)
  {
    assert '.' !in path ==> Split(path, '.') == [path];
    Walk(root, Split(path, '.'))
  }

  /**
   * Any path made of `.`-free segments resolves by walking exactly those
   * segments, in order.
   */
  lemma DottedPath(root: Value, segments: seq<string>)
    requires |segments| >= 1
    requires forall i :: 0 <= i < |segments| ==> '.' !in segments[i]
    ensures GetParentObject(root, Join(segments, '.')) == Walk(root, segments)
  {
    SplitJoin(segments, '.');
  }

  /** Continues a walk from wherever an earlier walk ended, unless it threw. */
  function Resume(r: Result<Value, Exception>, elements: seq<string>): Result<Value, Exception> {
    match r
    case Failure(e) => Failure(e)
    case Success(obj) => Walk(obj, elements)
  }

  /** Walking a path in two pieces is walking it in one. */
  lemma {:induction false} WalkAppend(obj: Value, a: seq<string>, b: seq<string>)
    ensures Walk(obj, a + b) == Resume(Walk(obj, a), b)
    decreases |a|
  {
    if |a| == 0 {
      assert a + b == b;
    } else if obj.Object? {
      assert (a + b)[0] == a[0];
      assert (a + b)[1..] == a[1..] + b;
      match Step(obj, a[0])
      case Failure(e) =>
      case Success(next) => WalkAppend(next, a[1..], b);
    }
  }

  /** The segments other than `Array`, in order. */
  function WithoutArraySegments(elements: seq<string>): (r: seq<string>)
    ensures |r| <= |elements|
    ensures forall i :: 0 <= i < |r| ==> r[i] != ArraySegment
    decreases |elements|
  {
    if |elements| == 0 then []
    else if elements[0] == ArraySegment then WithoutArraySegments(elements[1..])
    else [elements[0]] + WithoutArraySegments(elements[1..])
  }

  /** `Array` segments have no effect on where a walk ends or whether it throws. */
  lemma {:induction false} ArraySegmentsIgnored(obj: Value, elements: seq<string>)
    ensures Walk(obj, elements) == Walk(obj, WithoutArraySegments(elements))
    decreases |elements|
  {
    if |elements| > 0 {
      ArraySegmentsIgnored(obj, elements[1..]);
      if obj.Object? {
        if elements[0] == ArraySegment {
        } else {
          var rest := WithoutArraySegments(elements[1..]);
          assert ([elements[0]] + rest)[1..] == rest;
          match Step(obj, elements[0])
          case Failure(e) =>
          case Success(next) => ArraySegmentsIgnored(next, elements[1..]);
        }
      }
    }
  }

  /** The segment Unity writes for element `k` of a list. */
  function ElementSegment(k: nat): (element: string)
    ensures StartsWith(element, ElementPrefix) && '.' !in element
  {
    var digits := DecimalString(k);
    var element := ElementPrefix + digits + "]";
    assert forall i :: 0 <= i < |digits| ==> element[|ElementPrefix| + i] == digits[i];
    assert element[..|ElementPrefix|] == ElementPrefix;
    element
  }

  /** The index in an element segment reads back as the element's number. */
  lemma ElementIndexOfSegment(k: nat)
    requires k <= MaxInt32
    ensures ElementIndex(ElementSegment(k)) == Success(k)
  {
    var digits := DecimalString(k);
    var element := ElementSegment(k);
    assert ']' !in element[..|ElementPrefix| + |digits|] by {
      assert forall i :: 0 <= i < |digits| ==> element[|ElementPrefix| + i] == digits[i];
    }
    IndexOfFirst(element, ']', |ElementPrefix| + |digits|);
    assert element[|ElementPrefix|..|ElementPrefix| + |digits|] == digits;
    ParseDecimal(k);
  }

  /** The property path Unity gives element `k` of the list held by field `f`. */
  function ElementPath(f: string, k: nat): string {
    f + "." + ArraySegment + "." + ElementSegment(k)
  }

  /** The path of element `k` of list field `f` splits into the field, `Array`, and the element segment. */
  lemma ElementPathSegments(f: string, k: nat)
    requires '.' !in f
    ensures Split(ElementPath(f, k), '.') == [f, ArraySegment, ElementSegment(k)]
  {
    var element := ElementSegment(k);
    var segments := [f, ArraySegment, element];
    assert '.' !in element;
    assert '.' !in ArraySegment;
    forall i | 0 <= i < |segments|
      ensures '.' !in segments[i]
    {
      if i == 0 {
        assert segments[i] == f;
      } else if i == 1 {
        assert segments[i] == ArraySegment;
      } else {
        assert segments[i] == element;
      }
    }
    SplitJoin(segments, '.');
    JoinThree(f, ArraySegment, element, '.');
    assert f + "." + ArraySegment + "." + element == f + ['.'] + ArraySegment + ['.'] + element;
  }

  /** From a list object, `Array` then the segment of element `k` lead to that element. */
  lemma ElementWalk(list: Value, k: nat)
    requires list.Object? && list.items.Some? && k < |list.items.value| && k <= MaxInt32
    ensures Walk(list, [ArraySegment, ElementSegment(k)]) == Success(list.items.value[k])
  {
    var element := ElementSegment(k);
    ElementIndexOfSegment(k);
    assert element != ArraySegment by {
      assert element[..|ElementPrefix|] == ElementPrefix;
      assert element[0] == 'd';
    }
    assert Step(list, element) == Success(list.items.value[k]);
    assert Walk(list, [element]) == Walk(list.items.value[k], []);
    assert Step(list, ArraySegment) == Success(list);
    assert [ArraySegment, element][1..] == [element];
    assert Walk(list, [ArraySegment, element]) == Walk(list, [element]);
  }

  /**
   * The path Unity gives the k-th element of a list field `f` resolves to
   * that element.
   */
  lemma ListElementPath(root: Value, f: string, k: nat)
    requires root.Object? && f in root.fields
    requires '.' !in f && IsFieldSegment(f)
    requires root.fields[f].Object? && root.fields[f].items.Some?
    requires k < |root.fields[f].items.value| && k <= MaxInt32
    ensures GetParentObject(root, ElementPath(f, k)) == Success(root.fields[f].items.value[k])
  {
    var segments := [f, ArraySegment, ElementSegment(k)];
    ElementPathSegments(f, k);
    ElementWalk(root.fields[f], k);
    assert Step(root, f) == Success(root.fields[f]);
    assert segments[1..] == [ArraySegment, ElementSegment(k)];
  }
}

=== FILE: text.dfy ===
/**
 * The few .NET string operations the drawers rely on, over `seq<char>`:
 * character search, prefix test, `Split` on one separator and `int.Parse`.
 * Comparisons are ordinal; culture-sensitive matching is not modelled.
 */
module Text {
  import opened Wrappers
  import opened Numerics

  /** `s.IndexOf(c)`: the first position holding `c`, or -1. */
  function IndexOf(s: string, c: char): (r: int)
    ensures -1 <= r < |s|
    ensures r == -1 <==> c !in s
    ensures r >= 0 ==> s[r] == c && c !in s[..r]
    decreases |s|
  {
    if |s| == 0 then -1
    else if s[0] == c then 0
    else
      var k := IndexOf(s[1..], c);
      assert s == [s[0]] + s[1..];
      if k == -1 then -1
      else
        assert s[..k + 1] == [s[0]] + s[1..][..k];
        k + 1
  }

  /** `s.LastIndexOf(c)`: the last position holding `c`, or -1. */
  function LastIndexOf(s: string, c: char): (r: int)
    ensures -1 <= r < |s|
    ensures r >= 0 ==> s[r] == c
    ensures forall j :: r < j < |s| ==> s[j] != c
    decreases |s|
  {
    if |s| == 0 then -1
    else if s[|s| - 1] == c then |s| - 1
    else
      var k := LastIndexOf(s[..|s| - 1], c);
      assert forall j :: k < j < |s| - 1 ==> s[..|s| - 1][j] == s[j];
      k
  }

  /** `s.StartsWith(prefix)`, compared ordinally. */
  predicate StartsWith(s: string, prefix: string) {
    |prefix| <= |s| && s[..|prefix|] == prefix
  }

  /** `string.Join(sep, parts)`. */
  function Join(parts: seq<string>, sep: char): string
    decreases |parts|
  {
    if |parts| == 0 then ""
    else if |parts| == 1 then parts[0]
    else parts[0] + [sep] + Join(parts[1..], sep)
  }

  /** Joining a first segment onto a non-empty list puts one separator between them. */
  lemma JoinCons(first: string, rest: seq<string>, sep: char)
    requires |rest| >= 1
    ensures Join([first] + rest, sep) == first + [sep] + Join(rest, sep)
  {
    assert ([first] + rest)[1..] == rest;
  }

  /** Text is what lies before a position, the character there, and what follows. */
  lemma CutAt(s: string, k: nat)
    requires k < |s|
    ensures s == s[..k] + [s[k]] + s[k + 1..]
  {
    assert s[k..] == [s[k]] + s[k + 1..];
    assert s == s[..k] + s[k..];
  }

  /** `s.Split(sep)`: every segment between separators, empty ones included. */
  function Split(s: string, sep: char): (parts: seq<string>)
    ensures |parts| >= 1
    ensures |parts| == 1 <==> sep !in s
    decreases |s|
  {
    var k := IndexOf(s, sep);
    if k == -1 then [s] else [s[..k]] + Split(s[k + 1..], sep)
  }

  /** Past the first separator, a split is the text before it followed by the split of the text after it. */
  lemma SplitFirst(s: string, sep: char)
    requires sep in s
    ensures var k := IndexOf(s, sep);
            && 0 <= k < |s| && sep !in s[..k]
            && Split(s, sep) == [s[..k]] + Split(s[k + 1..], sep)
  {
  }

  /** No segment of a split holds the separator. */
  lemma {:induction false} SplitSegments(s: string, sep: char)
    ensures forall i :: 0 <= i < |Split(s, sep)| ==> sep !in Split(s, sep)[i]
    decreases |s|
  {
    if sep in s {
      var k := IndexOf(s, sep);
      SplitFirst(s, sep);
      SplitSegments(s[k + 1..], sep);
      var rest := Split(s[k + 1..], sep);
      forall i | 0 <= i < |Split(s, sep)|
        ensures sep !in Split(s, sep)[i]
      {
        if i > 0 {
          assert Split(s, sep)[i] == rest[i - 1];
        }
      }
    }
  }

  /** Joining the segments of a split restores the text. */
  lemma {:induction false} JoinSplit(s: string, sep: char)
    ensures Join(Split(s, sep), sep) == s
    decreases |s|
  {
    if sep in s {
      var k := IndexOf(s, sep);
      SplitFirst(s, sep);
      JoinSplit(s[k + 1..], sep);
      JoinCons(s[..k], Split(s[k + 1..], sep), sep);
      CutAt(s, k);
    }
  }

  /** `IndexOf` finds an occurrence once the text before it is free of `c`. */
  lemma IndexOfFirst(s: string, c: char, k: nat)
    requires k < |s| && s[k] == c && c !in s[..k]
    ensures IndexOf(s, c) == k
  {
    var r := IndexOf(s, c);
    assert s[..k][..] == s[..k];
    assert forall j :: 0 <= j < k ==> s[..k][j] == s[j];
    assert forall j :: 0 <= j < r ==> s[..r][j] == s[j];
  }

  /** Splitting text that starts with a separator-free segment and a separator peels that segment off. */
  lemma SplitAfter(first: string, rest: string, sep: char)
    requires sep !in first
    ensures Split(first + [sep] + rest, sep) == [first] + Split(rest, sep)
  {
    var s := first + [sep] + rest;
    assert s[..|first|] == first;
    assert s[|first|] == sep;
    IndexOfFirst(s, sep, |first|);
    assert s[|first| + 1..] == rest;
  }

  /** Splitting a joined list of separator-free segments gives the segments back. */
  lemma {:induction false} SplitJoin(parts: seq<string>, sep: char)
    requires |parts| >= 1
    requires forall i :: 0 <= i < |parts| ==> sep !in parts[i]
    ensures Split(Join(parts, sep), sep) == parts
    decreases |parts|
  {
    if |parts| == 1 {
      assert sep !in parts[0];
    } else {
      var rest := parts[1..];
      forall i | 0 <= i < |rest|
        ensures sep !in rest[i]
      {
        assert rest[i] == parts[i + 1];
      }
      var joined := Join(rest, sep);
      assert Join(parts, sep) == parts[0] + [sep] + joined;
      SplitAfter(parts[0], joined, sep);
      SplitJoin(rest, sep);
      assert parts == [parts[0]] + rest;
    }
  }

  /** Joining three segments. */
  lemma JoinThree(a: string, b: string, c: string, sep: char)
    ensures Join([a, b, c], sep) == a + [sep] + b + [sep] + c
  {
    assert [a, b, c][1..] == [b, c];
    assert [b, c][1..] == [c];
    assert Join([c], sep) == c;
    assert Join([b, c], sep) == b + [sep] + c;
  }

  /** The white-space characters `int.Parse` skips at either end. */
  predicate IsWhiteSpace(ch: char) {
    ch == '\t' || ch == '\n' || ch == '\U{B}' || ch == '\U{C}' || ch == '\r' || ch == ' '
  }

  predicate IsDigit(ch: char) {
    '0' <= ch <= '9'
  }

  predicate AllDigits(s: string) {
    forall i :: 0 <= i < |s| ==> IsDigit(s[i])
  }

  function TrimStart(s: string): (t: string)
    ensures |t| <= |s| && t == s[|s| - |t|..]
    ensures |t| > 0 ==> !IsWhiteSpace(t[0])
    decreases |s|
  {
    if |s| > 0 && IsWhiteSpace(s[0]) then TrimStart(s[1..]) else s
  }

  function TrimEnd(s: string): (t: string)
    ensures |t| <= |s| && t == s[..|t|]
    ensures |t| > 0 ==> !IsWhiteSpace(t[|t| - 1])
    decreases |s|
  {
    if |s| > 0 && IsWhiteSpace(s[|s| - 1]) then TrimEnd(s[..|s| - 1]) else s
  }

  /** The value of a string of decimal digits, most significant first. */
  function DigitsValue(ds: string): nat
    requires AllDigits(ds)
    decreases |ds|
  {
    if |ds| == 0 then 0
    else 10 * DigitsValue(ds[..|ds| - 1]) + (ds[|ds| - 1] as int - '0' as int)
  }

  /** Leading and trailing white space removed. */
  function Trim(s: string): string {
    TrimEnd(TrimStart(s))
  }

  /** A leading sign, if any, split off: whether it was `-`, and the rest. */
  function SplitSign(t: string): (r: (bool, string))
    ensures |t| > 0 && (t[0] == '-' || t[0] == '+') ==> r == (t[0] == '-', t[1..])
    ensures |t| == 0 || (t[0] != '-' && t[0] != '+') ==> r == (false, t)
  {
    if |t| > 0 && (t[0] == '-' || t[0] == '+') then (t[0] == '-', t[1..]) else (false, t)
  }

  /** A signed magnitude as an `int`, or an overflow error. */
  function SignedInt32(negative: bool, magnitude: nat): (r: Result<Int32, Exception>)
    ensures !negative && magnitude <= MaxInt32 ==> r == Success(magnitude)
    ensures negative && magnitude <= -MinInt32 ==> r == Success(-(magnitude as int))
    ensures r.Failure? <==> magnitude > (if negative then -MinInt32 else MaxInt32)
    ensures r.Failure? ==> r.error == Overflow
  {
    var v: int := if negative then -(magnitude as int) else magnitude;
    if MinInt32 <= v <= MaxInt32 then Success(v) else Failure(Overflow)
  }

  /** Text `int.Parse` accepts the form of: trimmed, an optional sign, then at least one digit. */
  predicate IsIntegerText(s: string) {
    var (_, digits) := SplitSign(Trim(s));
    |digits| > 0 && AllDigits(digits)
  }

  /**
   * `int.Parse(s)` with the invariant culture: optional white space, an
   * optional `+` or `-`, one or more decimal digits, optional white space.
   * Anything else throws a format error; a well-formed value outside 32 bits
   * throws an overflow error.
   */
  function ParseInt32(s: string): (r: Result<Int32, Exception>)
    ensures r == Failure(Format) <==> !IsIntegerText(s)
    ensures r.Failure? ==> r.error == Format || r.error == Overflow
    ensures IsIntegerText(s) ==>
              var (negative, digits) := SplitSign(Trim(s));
              var v: int := if negative then -(DigitsValue(digits) as int) else DigitsValue(digits);
              (r.Success? <==> MinInt32 <= v <= MaxInt32) && (r.Success? ==> r.value == v)
  {
    var (negative, digits) := SplitSign(Trim(s));
    if |digits| == 0 || !AllDigits(digits) then Failure(Format)
    else SignedInt32(negative, DigitsValue(digits))
  }

  function DigitChar(d: nat): (ch: char)
    requires d < 10
    ensures IsDigit(ch) && ch as int - '0' as int == d
  {
    ('0' as int + d) as char
  }

  /** `n.ToString()` for a non-negative `n`: its shortest decimal digits. */
  function DecimalString(n: nat): (s: string)
    ensures |s| >= 1 && AllDigits(s)
    ensures n > 0 ==> s[0] != '0'
    decreases n
  {
    if n < 10 then [DigitChar(n)] else DecimalString(n / 10) + [DigitChar(n % 10)]
  }

  lemma {:induction false} DigitsValueOfDecimal(n: nat)
    ensures DigitsValue(DecimalString(n)) == n
    decreases n
  {
    var s := DecimalString(n);
    if n >= 10 {
      assert s[..|s| - 1] == DecimalString(n / 10);
      DigitsValueOfDecimal(n / 10);
    }
  }

  /** Text that neither starts nor ends with white space is left alone by trimming. */
  lemma TrimUnchanged(s: string)
    requires |s| > 0 && !IsWhiteSpace(s[0]) && !IsWhiteSpace(s[|s| - 1])
    ensures Trim(s) == s
  {
  }

  /** Text already trimmed, made of an optional sign and digits, parses to the signed digits' value. */
  lemma ParseSignedDigits(s: string, negative: bool, ds: string)
    requires Trim(s) == s && SplitSign(s) == (negative, ds)
    requires |ds| > 0 && AllDigits(ds)
    ensures ParseInt32(s) == SignedInt32(negative, DigitsValue(ds))
  {
  }

  /** A run of digits parses to its value when that fits in an `int`. */
  lemma ParseDigits(ds: string)
    requires |ds| > 0 && AllDigits(ds) && DigitsValue(ds) <= MaxInt32
    ensures ParseInt32(ds) == Success(DigitsValue(ds))
  {
    assert IsDigit(ds[0]) && IsDigit(ds[|ds| - 1]);
    TrimUnchanged(ds);
    ParseSignedDigits(ds, false, ds);
  }

  /** `int.Parse` reads back every non-negative `int` from its decimal text. */
  lemma ParseDecimal(n: nat)
    requires n <= MaxInt32
    ensures ParseInt32(DecimalString(n)) == Success(n)
  {
    DigitsValueOfDecimal(n);
    ParseDigits(DecimalString(n));
  }
}

=== FILE: wrappers.dfy ===
/** Option and Result: the model's stand-ins for C# `null` and for thrown exceptions. */
module Wrappers {

  /** A reference that may be null. */
  datatype Option<+T> = None | Some(value: T)

  /** A computation that either returns a value or throws. */
  datatype Result<+R, +E> = Success(value: R) | Failure(error: E)

  /** The runtime exceptions the modelled code can raise. */
  datatype Exception =
    | IndexOutOfRange      // array or list subscript outside the collection
    | ArgumentOutOfRange   // `Substring` with a negative length
    | Format               // `int.Parse` on text that is not an integer
    | Overflow             // `int.Parse` on an integer outside 32 bits
}
